=== FILE: README.md ===
# WhatsApp–GLPI support funnel, modelled in Dafny

This project models the conversational funnel of the `chatbot-glpi` WhatsApp bot (`chatbot.js`). The bot guides each
WhatsApp user through a fixed menu. The user either opens a support ticket in GLPI (name, sector, ticket type,
description) or looks up the status of an existing ticket.

The model covers:

- the per-user session store `userState`;
- the inactivity-timer bookkeeping (`iniciarTimeout`, `encerrarSessao` and the timer callback);
- the `message` handler: the sender filter, the restart rule, the six step branches and the `catch`-all teardown,
  both as written (`Findings.HandleAsWritten`) and with the two defects listed under "## Findings" corrected
  (`Funnel.Handle`);
- the fixed tables: restart words, the `tipos` menu and the `STATUS_GLPI` labels.

Each inbound message is one pure transition, `Funnel.Handle(world, from, body, env)`. The properties in
`funnel_properties.dfy` are proved of this corrected handler; `Findings.HandlersAgreeElsewhere` shows that the handler
as written does exactly the same on every input except the two that the findings describe. It returns the new state, the
reply attempted and the GLPI call made. The two GLPI calls and the sending of the reply are not executed. Their
outcomes are the input `env`:

- a created ticket id, or a failure;
- a ticket record, or a failure;
- whether sending the reply succeeded.

Timers are tracked by identity. Arming a timer allocates a fresh id and records whose entry its callback deletes.
Cancelling a timer removes it from the pending set. An expiry is the explicit event `Sessions.Expire(world, id)`.

Files:

- `wrappers.dfy`: the `Option` and `Outcome` types.
- `text.dfy`: the ECMAScript string operations the handler uses (`trim`, `toLowerCase`, `endsWith`, the `\D` filter,
  integer-to-text).
- `catalog.dfy`: the restart words, the ticket-type menu and the status labels.
- `sessions.dfy`: steps, sessions, the store, the timers and the timer invariant.
- `funnel.dfy`: the handler.
- `funnel_properties.dfy`: the handler's properties.
- `findings.dfy`: two places where the code does not do what it evidently intends, and the handler as written.

## Model

| member | source | states |
|---|---|---|
| Text.Trim | chatbot.js:137 | the trimmed text has no white space at either end and is no longer than the body |
| Text.TrimStartShape | chatbot.js:137 | trimming the front removes only white space and keeps the rest of the text |
| Text.TrimEndShape | chatbot.js:137 | trimming the back removes only white space and keeps the start of the text |
| Text.TrimIsSlice | chatbot.js:137 | the trimmed text is the slice of the body left once white space alone has been removed from both ends |
| Text.TrimOfTrimmed | chatbot.js:137 | text with no white space at either end is its own trim |
| Text.TrimIdempotent | chatbot.js:137 | trimming twice is trimming once |
| Text.TrimIgnoresPadding | chatbot.js:137 | white-space padding on either side does not change the trimmed text |
| Text.ToLower | chatbot.js:138 | lower-casing keeps the length, turns every modelled capital into its lower-case partner, keeps every other character, and leaves no capital behind; text without capitals is unchanged |
| Text.ToLowerIdempotent | chatbot.js:138 | lower-casing twice is lower-casing once |
| Text.KeepDigits | chatbot.js:232 | the ticket number holds only digits, and it is empty exactly when the text has no digit |
| Text.KeepDigitsCounts | chatbot.js:232 | the ticket number holds every digit of the text as often as it occurs, and nothing else |
| Text.KeepDigitsAppend | chatbot.js:232 | the digit filter works piecewise over concatenation, so the digits keep their order |
| Text.KeepDigitsOfDigits | chatbot.js:232 | a string of digits passes the filter unchanged |
| Text.KeepDigitsIdempotent | chatbot.js:232 | filtering twice is filtering once |
| Text.NatToString | chatbot.js:249 | a number's decimal text is non-empty, all digits, and has no leading zero |
| Text.ParseNatToString | chatbot.js:249 | reading a number's decimal text back gives the number |
| Text.IntToString | chatbot.js:249 | an integer's text starts with `-` exactly when the integer is negative |
| Text.IntToStringInjective | chatbot.js:249 | distinct integers render as distinct text |
| Catalog.ResetTextIgnoresCase | chatbot.js:141 | the restart test gives the same answer for the text and its lower-case form |
| Catalog.IsResetText | chatbot.js:138-141 | the restart test: the lower-cased text is one whole alternative of the restart pattern; its properties are stated by `Catalog.ResetTextIgnoresCase`, `Catalog.ResetTextCaseInsensitive` and `Catalog.ResetWordSpellings` |
| Catalog.ResetTextCaseInsensitive | chatbot.js:138-141 | two texts that differ only in letter case are both restart words or neither is |
| Catalog.ResetWordSpellings | chatbot.js:141 | `MENU`, `Oi`, `OLÁ`, `Bom Dia` and `BOA NOITE` restart the funnel; `menu please` and `1` do not |
| Catalog.TicketType | chatbot.js:198-206 | exactly the options "1".."5" choose a type, and option k chooses the k-th label of the menu |
| Catalog.TicketTypeInjective | chatbot.js:198-204 | no two options choose the same label |
| Catalog.TicketTypeCoversLabels | chatbot.js:198-204 | every label on the menu is chosen by its position's digit |
| Catalog.StatusText | chatbot.js:238-249 | statuses 1–6 show Novo, Em atendimento, Em teste, Pendente, Resolvido, Fechado; any other value v shows "Status desconhecido (v)" |
| Catalog.StatusTextInjective | chatbot.js:238-249 | distinct statuses are always shown differently, known or not |
| Sessions.Rank | chatbot.js:155-258 | only the first menu is at distance 0 |
| Sessions.FollowsMovesForward | chatbot.js:155-258 | every step transition of the funnel moves exactly one position forward |
| Sessions.OneTimerPerSession | chatbot.js:40-60 | under the timer invariant a live session has exactly one pending timer and an absent user has none |
| Sessions.EmptyIsConsistent | chatbot.js:33 | the empty store satisfies the timer and field invariants |
| Sessions.CancelTimerClearsUser | chatbot.js:41-42 | under the timer invariant, cancelling (`Sessions.CancelTimer`) leaves the user no pending timer and every other user exactly the timers they had |
| Sessions.Arm | chatbot.js:40-53 | re-arming cancels the stored timer and stores a new pending timer for the user; progress and other users stay unchanged |
| Sessions.EndSession | chatbot.js:55-60 | teardown deletes only the user's entry, cancels only its stored timer and arms nothing |
| Sessions.ResetSession | chatbot.js:141-143 | a restart leaves the user a fresh `menu_inicial` session with a new timer; other users stay unchanged |
| Sessions.ResetAsWritten | chatbot.js:141-143 | the restart as written also leaves a fresh session, but the pending timers are the old ones plus the new one: nothing is cancelled |
| Sessions.Expire | chatbot.js:44-52 | a cancelled timer does nothing; a pending one notifies the user it was armed for, deletes that user's entry and that timer, and changes nothing else |
| Sessions.ArmPreservesTimers | chatbot.js:40-53 | re-arming keeps exactly one pending timer per live session |
| Sessions.EndSessionPreservesTimers | chatbot.js:55-60 | teardown keeps exactly one pending timer per live session |
| Sessions.ResetSessionPreservesTimers | chatbot.js:141-143 | the corrected restart keeps exactly one pending timer per live session |
| Sessions.ExpirePreservesTimers | chatbot.js:44-52 | an expiry deletes only the session that stores the timer and keeps the timer invariant |
| Sessions.IdleSessionExpires | chatbot.js:44-52 | an idle session's own timer removes exactly that session and notifies its user |
| Sessions.ConsistentIsOwned | chatbot.js:40-60 | the one-timer invariant implies timer ownership: every pending timer was allocated, and a stored timer that is still pending belongs to its session |
| Sessions.CancelTimerOwned | chatbot.js:41-42 | under ownership, cancelling the user's stored timer keeps ownership and removes no other user's timer |
| Sessions.PutOwned | chatbot.js:142 | storing a session whose timer belongs to its user keeps ownership and changes no other user |
| Sessions.ArmOwned | chatbot.js:40-53 | re-arming keeps ownership and changes no other user, because the new timer id was never pending |
| Sessions.EndSessionOwned | chatbot.js:55-60 | teardown keeps ownership and changes no other user |
| Sessions.ResetsOwned | chatbot.js:141-143 | the restart, as written and corrected, keeps ownership and changes no other user |
| Sessions.ExpireOwned | chatbot.js:44-52 | an expiry keeps ownership, orphaned timers included |
| Funnel.StepSession | chatbot.js:155-258 | a step branch that keeps the session never touches its stored timer |
| Funnel.Handle | chatbot.js:133-263 | the corrected handler for one message; it has no contract of its own, and its properties are the `FunnelProperties` lemmas and `Findings.HandlersAgreeElsewhere` |
| Funnel.Apply | chatbot.js:155-262 | the tail both handlers share: store the updated session and send the prompt, ending the session if sending throws, or end the session after the service call; it has no contract of its own, and `FunnelProperties.ApplyOwned` states its property |
| Funnel.Ignored | chatbot.js:135 | the sender filter; `FunnelProperties.IgnoredIffNoEffect` states that exactly these messages have no effect |
| Funnel.Texto | chatbot.js:137 | the text the step branches see has no white space at either end, and is empty when the message has no body; `FunnelProperties.TextoIsTrimmedBody` relates it to the body |
| FunnelProperties.TextoIsTrimmedBody | chatbot.js:137 | the text is the body with its white-space margins removed: a slice of the body whose prefix before it and suffix after it are all white space, or "" when there is no body |
| FunnelProperties.IgnoredIffNoEffect | chatbot.js:135 | a message has no effect at all exactly when its sender is empty or ends in `@g.us` |
| FunnelProperties.ResetHasPriority | chatbot.js:141-153 | an unknown sender, or a restart word in any case, yields the main menu and a fresh `menu_inicial` session with no collected field, whatever the step was |
| FunnelProperties.MenuInicialChoice | chatbot.js:159-170 | in `menu_inicial`, "1" moves to `aguardando_nome`, "2" to `consultar_chamado`, and other text re-prompts with step and fields unchanged |
| FunnelProperties.NameIsStored | chatbot.js:173-178 | in `aguardando_nome` the trimmed text becomes `nome` and the step moves to `aguardando_setor`; no other field changes |
| FunnelProperties.SectorIsStored | chatbot.js:181-194 | in `aguardando_setor` the trimmed text becomes `setor` and the step moves to `menu_tipo`; no other field changes |
| FunnelProperties.TypeMenuChoice | chatbot.js:197-215 | with the corrected lookup, in `menu_tipo` exactly "1".."5" are accepted, each storing its label and moving to `abrir_chamado`; other text changes nothing |
| FunnelProperties.OpenTicket | chatbot.js:218-228 | in `abrir_chamado` the text is the description of exactly one create call, with the sender and the collected name and sector; the session ends; a failure sends no reply |
| FunnelProperties.ConsultTicket | chatbot.js:231-258 | in `consultar_chamado` text without digits re-prompts and calls nothing; otherwise its digits are looked up, the status is rendered, and the session ends whatever the outcome |
| FunnelProperties.StepKeepsOrAdvances | chatbot.js:155-258 | a step branch keeps position and fields, or moves one step forward |
| FunnelProperties.StepPreservesWellFormed | chatbot.js:155-223 | a step branch keeps each session's fields matching its step, so a create call always carries a name and a sector |
| FunnelProperties.StepsOnlyMoveForward | chatbot.js:155-258 | outside a restart, the sender's session ends, stays where it was, or moves one step forward |
| FunnelProperties.ApplyOwned | chatbot.js:155-262 | whatever a step branch decides, storing or ending the sender's session keeps timer ownership and touches no other user |
| FunnelProperties.OthersUntouched | chatbot.js:133-263 | a message changes no other user's session or pending timer, and keeps timer ownership; this needs only ownership, not the one-timer invariant |
| FunnelProperties.HandlePreservesTimers | chatbot.js:40-60 | with the corrected restart, every message keeps exactly one pending timer per live session and none for absent users |
| FunnelProperties.MessageRearmsTimer | chatbot.js:143 | a session that survives a message stores the new timer armed for that message |
| FunnelProperties.EndedSessionLeavesNoTimer | chatbot.js:55-60 | with the corrected restart, a message that ends the sender's session leaves no timer pending for that sender |
| FunnelProperties.HandlePreservesWellFormed | chatbot.js:155-215 | every session keeps exactly the fields its step has collected |
| FunnelProperties.CreateCarriesRequester | chatbot.js:219-223 | a create call always carries the requester's name and sector |
| FunnelProperties.FailureRestartsClean | chatbot.js:259-262 | after a failed create the sender has no session, so their next message starts a fresh `menu_inicial` and calls nothing |
| FunnelProperties.DigitIsPlain | chatbot.js:137-141 | a single digit reaches the step branches as typed |
| FunnelProperties.WalkToSector | chatbot.js:141-178 | any first message, then "1" and a name, lead to `aguardando_setor` holding that name |
| FunnelProperties.WalkToOpen | chatbot.js:181-215 | a sector and a type option lead to `abrir_chamado` holding the sector and the option's label |
| FunnelProperties.WalkFromSector | chatbot.js:181-228 | from `aguardando_setor`, a sector, a type option and a description end in one create call |
| FunnelProperties.OpenTicketWalkthrough | chatbot.js:141-228 | a whole conversation from an unknown sender ends in one create call with the collected data and leaves no session |
| Findings.ResetAsWrittenOrphansTimer | chatbot.js:40-44 | as written, restarting a live session leaves its old timer pending, so the user has two timers |
| Findings.OrphanedTimerEndsNewSession | chatbot.js:44-52 | the orphaned timer fires and deletes the session the restart just created |
| Findings.CancellingResetKeepsNewSession | chatbot.js:141-143 | with the corrected restart the old timer is cancelled, and its expiry does nothing |
| Findings.InheritedNamesAccepted | chatbot.js:206-212 | as written, every one of the twelve inherited names passes the `tipos` test as that inherited value; the own-key menu rejects them all |
| Findings.TypeLookupAgreesOffPrototype | chatbot.js:198-211 | apart from the inherited names, the lookup as written and the corrected lookup agree |
| Findings.StepSessionAsWritten | chatbot.js:155-258 | the step branches as written, with `menu_tipo` taking whatever `tipos[texto]` finds; it has no contract of its own, and `Findings.HandleAsWrittenAcceptsInherited` and `Findings.HandlersAgreeElsewhere` state how it differs from `Funnel.StepSession` |
| Findings.HandleAsWritten | chatbot.js:133-263 | the handler as written; it has no contract of its own, and its properties are `Findings.HandleAsWrittenOrphansTimer`, `Findings.HandleAsWrittenAcceptsInherited`, `Findings.HandlersAgreeElsewhere` and `Findings.HandleAsWrittenOthersUntouched` |
| Findings.InheritedNamesAreNotResetWords | chatbot.js:141 | no inherited name is a restart word, so each one reaches the step branches |
| Findings.HandleAsWrittenOrphansTimer | chatbot.js:40-44 | as written, a restart word from a live session leaves its old timer pending: beside the new one and breaking the timer invariant when the menu is sent, and for a sender with no session when sending throws; timer ownership still holds |
| Findings.HandleAsWrittenAcceptsInherited | chatbot.js:206-213 | as written, an inherited name at `menu_tipo` is stored as the ticket type and moves the session to `abrir_chamado`; the corrected handler answers "Opção inválida." and keeps the session where it was |
| Findings.HandlersAgreeElsewhere | chatbot.js:133-263 | on every message other than a restart word from a live session or an inherited name at `menu_tipo`, the handler as written and the corrected handler produce the same turn |
| Findings.HandleAsWrittenOthersUntouched | chatbot.js:133-263 | the handler as written also changes no other user's session or pending timer, and keeps timer ownership although it breaks the one-timer invariant |

## Left out

- WhatsApp client setup, QR display, `initialize` and the transport (chatbot.js:12-31, 122-128). Replies are values
  of `Funnel.Reply`. Sending is modelled only by whether it throws.
- GLPI access (chatbot.js:65-117): authentication, tokens, URLs, request bodies, category and priority. These are
  foreign network calls. `Funnel.Call` records what the service reads from the arguments the handler passes: the
  whole session is passed as `dadosUsuario` (chatbot.js:222), but only its `nome` and `setor` are read
  (chatbot.js:79-80, 91), so `CreateTicket` records those two. The outcome is an input.
- The 5-minute duration and real timing (chatbot.js:38). An expiry is an event that names any pending timer. The
  model therefore does not force timers armed earlier to fire earlier.
- Interleaving at `await` points. Each message is handled atomically, including its GLPI call and its reply, and an
  expiry is atomic too. The listener is `async` and nothing serialises one sender's messages, so the code allows
  interleavings the model does not have: a second message that arrives while the first waits at `criarChamadoGLPI`
  (chatbot.js:219) still finds `abrir_chamado` and opens a second ticket; an expiry callback that waits at its notice
  (chatbot.js:46) then deletes a session that a message handled in between has advanced, and the timer that message
  armed stays pending. Interleavings across users are not modelled either.
- Emoji and markup in replies. Status labels are kept without their emoji.
- Text.ToLower: lower-cases only ASCII and Latin-1 capitals and keeps other characters. The only other characters
  that lower-case to ASCII letters are `İ`, which becomes two characters, and the Kelvin sign, which becomes `k`.
  Neither can complete a restart word, so the restart test is unaffected.
- JavaScript strings are UTF-16. Here strings are sequences of Unicode scalar values, so lone surrogates cannot occur.
- `userState` is a plain object. The model uses a true map, because sender ids (`<number>@c.us`) never collide with
  inherited property names.
- Text.IntToString: renders unbounded integers. Ticket ids and statuses are JavaScript numbers, so in the code an id
  of 1e21 or more renders in exponent form (`${1e21}` is "1e+21") and ids above 2^53 lose precision; neither is
  modelled.
- `ticket.status` is an integer. GLPI statuses that are not numbers, and other `res.data` shapes, are not modelled.
- Exceptions other than a failed GLPI call or a failed reply are not modelled. One example is a body that is not a
  string.
- The inactivity notice is best effort, and its failure is swallowed. `Expire` reports the user it tries to notify.
- FunnelProperties.MenuInicialChoice: assumes the reply is sent. If sending throws, `Funnel.Send` states that the
  session ends.
- FunnelProperties.NameIsStored: assumes the reply is sent. If sending throws, `Funnel.Send` states that the session
  ends.
- FunnelProperties.SectorIsStored: assumes the reply is sent. If sending throws, `Funnel.Send` states that the session
  ends.
- FunnelProperties.TypeMenuChoice: assumes the reply is sent. If sending throws, `Funnel.Send` states that the session
  ends. It is proved of the corrected lookup: as written, the twelve inherited names are accepted too
  (`Findings.HandleAsWrittenAcceptsInherited`).
- FunnelProperties.HandlePreservesTimers: proved of the corrected restart only. As written, a restart word from a live
  session leaves two pending timers for the sender (`Findings.HandleAsWrittenOrphansTimer`).
- FunnelProperties.EndedSessionLeavesNoTimer: proved of the corrected restart only. As written, a restart whose reply
  throws leaves the old timer pending for a sender with no session (`Findings.HandleAsWrittenOrphansTimer`).
- The code does not check that the name, sector or description is non-empty (chatbot.js:174, 182, 220). Empty text is
  stored or sent as it is, and the model does the same.
- On a failed GLPI call the `catch` block sends no reply (chatbot.js:259-262). The model's reply is then `None`.
- `tipoChamado` is passed to `criarChamadoGLPI` as part of the whole session (chatbot.js:222), but the service never
  reads it (chatbot.js:79-80, 91). `Funnel.CreateTicket` therefore omits it.

## Findings

| source | as written | input that shows it | evidently intended | confidence | as-written member | corrected member |
|---|---|---|---|---|---|---|
| chatbot.js:141-143 | the restart replaces `userState[from]` before `iniciarTimeout` looks for a stored timer, so the old timer is never cancelled and later deletes the new session | a session at `aguardando_nome` with timer 0 pending gets "menu"; timer 0 then fires | the old timer is cancelled, so each live session has exactly one pending timer | high; not executed | Findings.HandleAsWrittenOrphansTimer | Sessions.ResetSession |
| chatbot.js:206-211 | `tipos[texto]` also finds the members `tipos` inherits from `Object.prototype`, which are truthy | "constructor" (or "toString", "valueOf", …) at `menu_tipo` moves on to `abrir_chamado` | only "1".."5" are accepted | high; not executed | Findings.HandleAsWrittenAcceptsInherited | Catalog.TicketType |

`Funnel.Handle` uses the corrected members: `Sessions.ResetSession` and `Catalog.TicketType`.
`Findings.HandleAsWritten` uses `Sessions.ResetAsWritten` and `Findings.TypeLookupAsWritten`, and
`Findings.HandlersAgreeElsewhere` shows that the two handlers differ only on the inputs in this table.
`Findings.OrphanedTimerEndsNewSession` and `Findings.CancellingResetKeepsNewSession` show the two restarts side by
side on the same input.

=== FILE: catalog.dfy ===
/**
 * The fixed tables of the funnel: the words that restart it, the ticket-type
 * menu (`tipos`) and the ticket-status labels (`STATUS_GLPI`).
 */
module Catalog {
  import opened Wrappers
  import opened Text

  /** The alternatives of the restart pattern, in lower case. */
  const ResetWords: seq<string> := ["menu", "oi", "olá", "ola", "bom dia", "boa tarde", "boa noite"]

  /**
   * The restart test: the lower-cased text is one whole alternative of
   * `/^(menu|oi|olá|ola|bom dia|boa tarde|boa noite)$/i`.
   */
  predicate IsResetText(texto: string) {
    ToLower(texto) in ResetWords
  }

  /** The restart test ignores letter case. */
  lemma ResetTextIgnoresCase(texto: string)
    ensures IsResetText(texto) <==> IsResetText(ToLower(texto))
  {
    ToLowerIdempotent(texto);
  }

  /** Two texts that differ only in letter case are both restart words or neither is. */
  lemma ResetTextCaseInsensitive(a: string, b: string)
    requires ToLower(a) == ToLower(b)
    ensures IsResetText(a) <==> IsResetText(b)
  {
  }

  /** Upper-case and mixed-case spellings restart the funnel too. */
  lemma ResetWordSpellings()
    ensures IsResetText("MENU") && IsResetText("Oi") && IsResetText("OLÁ")
    ensures IsResetText("Bom Dia") && IsResetText("BOA NOITE")
    ensures !IsResetText("menu please") && !IsResetText("1")
  {
    assert ToLower("MENU") == "menu";
    assert ToLower("Oi") == "oi";
    assert ToLower("OLÁ") == "olá";
    assert ToLower("Bom Dia") == "bom dia";
    assert ToLower("BOA NOITE") == "boa noite";
    assert ToLower("menu please") == "menu please";
    assert ToLower("1") == "1";
  }

  /**
   * What `tipos[texto]` evaluates to and `tipoChamado` stores: one of the five
   * labels, or a member every plain object inherits from `Object.prototype`.
   */
  datatype TypeValue = Label(text: string) | Inherited(name: string)

  /** The labels of the ticket-type menu, option 1 first. */
  const TypeLabels: seq<string> := ["PC/Notebook", "Internet", "Sistemas", "Impressoras", "Solicitação"]

  /** The ticket-type menu as an own-property lookup: the label chosen by `texto`, if any. */
  function TicketType(texto: string): (r: Option<string>)
    ensures r.Some? <==> |texto| == 1 && '1' <= texto[0] <= '5'
    ensures r.Some? ==> r.value == TypeLabels[DigitValue(texto[0]) - 1]
  {
    if texto == "1" then Some("PC/Notebook")
    else if texto == "2" then Some("Internet")
    else if texto == "3" then Some("Sistemas")
    else if texto == "4" then Some("Impressoras")
    else if texto == "5" then Some("Solicitação")
    else None
  }

  /** Each label is chosen by exactly one option: the menu is a bijection from "1".."5" onto the labels. */
  lemma TicketTypeInjective(a: string, b: string)
    requires TicketType(a).Some? && TicketType(a) == TicketType(b)
    ensures a == b
  {
  }

  /** Every label on the menu is reachable from its position. */
  lemma TicketTypeCoversLabels(k: nat)
    requires k < |TypeLabels|
    ensures TicketType([DigitChar(k + 1)]) == Some(TypeLabels[k])
  {
  }

  /** The status labels, status 1 first. */
  const StatusLabels: seq<string> := ["Novo", "Em atendimento", "Em teste", "Pendente", "Resolvido", "Fechado"]

  /** The text shown for a ticket's numeric status. */
  function StatusText(status: int): (r: string)
    ensures 1 <= status <= 6 ==> r == StatusLabels[status - 1]
    ensures !(1 <= status <= 6) ==> r == "Status desconhecido (" + IntToString(status) + ")"
  {
    match status
    case 1 => "Novo"
    case 2 => "Em atendimento"
    case 3 => "Em teste"
    case 4 => "Pendente"
    case 5 => "Resolvido"
    case 6 => "Fechado"
    case _ => "Status desconhecido (" + IntToString(status) + ")"
  }

  /** Distinct statuses are always shown differently, known or not. */
  lemma StatusTextInjective(a: int, b: int)
    requires StatusText(a) == StatusText(b)
    ensures a == b
  {
    var prefix := "Status desconhecido (";
    if !(1 <= a <= 6) && !(1 <= b <= 6) {
      var ra := StatusText(a);
      var rb := StatusText(b);
      assert ra[|prefix|..|ra| - 1] == IntToString(a);
      assert rb[|prefix|..|rb| - 1] == IntToString(b);
      IntToStringInjective(a, b);
    }
  }
}

=== FILE: findings.dfy ===
/**
 * Two places where the handler's code does not do what its own structure
 * evidently intends. For each, the behaviour as written is modelled with an
 * input that exhibits it, next to the corrected behaviour the rest of the
 * model uses; the handler as written (`HandleAsWritten`) combines both and
 * is shown to agree with the corrected `Funnel.Handle` on every other input.
 */
module Findings {
  import opened Wrappers
  import opened Text
  import opened Catalog
  import opened Sessions
  import opened Funnel
  import opened FunnelProperties

  // ----- 1. the reset path orphans the previous session's timer -----

  /**
   * Whenever a live session is restarted as written, its old timer is still
   * pending beside the new one, so the sender has two timers and the store
   * no longer satisfies the one-timer-per-session invariant.
   */
  lemma ResetAsWrittenOrphansTimer(w: World, user: string)
    requires TimersConsistent(w) && user in w.sessions
    ensures var old_t := w.sessions[user].timeout.value;
            var w' := ResetAsWritten(w, user);
            && old_t in w'.timers && w'.timers[old_t] == user
            && PendingFor(w', user) == {old_t, w.nextTimer}
            && !TimersConsistent(w')
  {
  }

  /** A session at `aguardando_nome` whose timer 0 is pending. */
  const Midway: World :=
    World(map["u@c.us" := Session(AguardandoNome, None, None, None, Some(0))], map[0 := "u@c.us"], 1)

  /**
   * The orphaned timer fires and deletes the session the restart has just
   * created, although that session's own timer is still pending.
   */
  lemma OrphanedTimerEndsNewSession()
    ensures TimersConsistent(Midway)
    ensures var w := ResetAsWritten(Midway, "u@c.us");
            var e := Expire(w, 0);
            && w.sessions["u@c.us"].IsFresh()
            && "u@c.us" !in e.world.sessions
            && 1 in e.world.timers
  {
  }

  /** With the corrected reset the old timer is cancelled, so its expiry does nothing. */
  lemma CancellingResetKeepsNewSession()
    ensures var w := ResetSession(Midway, "u@c.us");
            && TimersConsistent(w)
            && w.sessions["u@c.us"].IsFresh()
            && Expire(w, 0) == Expired(w, None)
  {
  }

  // ----- 2. the ticket-type table is looked up as a plain object -----

  /** The names a plain object inherits from `Object.prototype`, each a truthy value. */
  const InheritedNames: seq<string> := [
    "constructor", "__defineGetter__", "__defineSetter__", "hasOwnProperty",
    "__lookupGetter__", "__lookupSetter__", "isPrototypeOf", "propertyIsEnumerable",
    "toString", "valueOf", "__proto__", "toLocaleString"]

  /** `tipos[texto]` as written: truthy for the five options and for every inherited name. */
  function TypeLookupAsWritten(texto: string): (r: Option<TypeValue>)
    ensures r.Some? && r.value.Label? ==> TicketType(texto) == Some(r.value.text)
  {
    match TicketType(texto)
    case Some(tipo) => Some(Label(tipo))
    case None => if texto in InheritedNames then Some(Inherited(texto)) else None
  }

  /**
   * As written, the menu accepts "constructor" and every other inherited name
   * as a ticket type; the corrected own-key lookup rejects them all.
   */
  lemma InheritedNamesAccepted()
    ensures forall n :: n in InheritedNames ==> TypeLookupAsWritten(n) == Some(Inherited(n)) && TicketType(n).None?
  {
  }

  /** No inherited name is a restart word, so each one reaches the step branches. */
  lemma InheritedNamesAreNotResetWords()
    ensures forall n :: n in InheritedNames ==> !IsResetText(n)
  {
  }

  /** Apart from the inherited names, the lookup as written and the corrected one agree. */
  lemma TypeLookupAgreesOffPrototype(texto: string)
    requires texto !in InheritedNames
    ensures TypeLookupAsWritten(texto).Some? <==> TicketType(texto).Some?
    ensures TicketType(texto).Some? ==> TypeLookupAsWritten(texto) == Some(Label(TicketType(texto).value))
  {
  }

  // ----- the handler as written -----

  /** The step branches as written: `menu_tipo` takes whatever `tipos[texto]` finds. */
  function StepSessionAsWritten(s: Session, from: string, texto: string, env: Env): Action {
    if s.step == MenuTipo then
      match TypeLookupAsWritten(texto)
      case None => Keep(s, InvalidOption)
      case Some(v) => Keep(s.(tipoChamado := Some(v), step := AbrirChamado), AskDescription)
    else
      StepSession(s, from, texto, env)
  }

  /** The `message` handler as written: the reset path replaces the entry before re-arming, and `tipos` is a plain object. */
  function HandleAsWritten(w: World, from: string, body: Option<string>, env: Env): Turn {
    if Ignored(from) then Turn(w, None, None)
    else
      var texto := Texto(body);
      if from !in w.sessions || IsResetText(texto) then
        Send(ResetAsWritten(w, from), from, MainMenu, env.delivered)
      else
        var a := Arm(w, from);
        Apply(a, from, StepSessionAsWritten(a.sessions[from], from, texto, env), env.delivered)
  }

  /**
   * As written, a restart word from a live session leaves its old timer
   * pending: beside the new one when the menu is sent, and for a user with no
   * session at all when sending it throws. Timer ownership still holds.
   */
  lemma HandleAsWrittenOrphansTimer(w: World, from: string, body: Option<string>, env: Env)
    requires TimersConsistent(w) && !Ignored(from) && from in w.sessions && IsResetText(Texto(body))
    ensures var old_t := w.sessions[from].timeout.value;
            var t := HandleAsWritten(w, from, body, env);
            && t.reply == Some(MainMenu) && t.call.None?
            && (env.delivered ==> PendingFor(t.world, from) == {old_t, w.nextTimer} && !TimersConsistent(t.world))
            && (!env.delivered ==> from !in t.world.sessions && PendingFor(t.world, from) == {old_t})
            && Owned(t.world)
  {
    ResetAsWrittenOrphansTimer(w, from);
    ConsistentIsOwned(w);
    HandleAsWrittenOthersUntouched(w, from, body, env);
  }

  /**
   * As written, an inherited name at `menu_tipo` is stored as the ticket type
   * and the session moves on to `abrir_chamado`; the corrected handler
   * answers "Opção inválida." and leaves the session where it was.
   */
  lemma HandleAsWrittenAcceptsInherited(w: World, from: string, body: Option<string>, env: Env)
    requires !Ignored(from) && from in w.sessions && w.sessions[from].step == MenuTipo
    requires Texto(body) in InheritedNames
    ensures var t := HandleAsWritten(w, from, body, env);
            && t.reply == Some(AskDescription) && t.call.None?
            && (env.delivered ==> from in t.world.sessions && t.world.sessions[from].step == AbrirChamado
                                  && t.world.sessions[from].tipoChamado == Some(Inherited(Texto(body))))
    ensures var t := Handle(w, from, body, env);
            && t.reply == Some(InvalidOption) && t.call.None?
            && (env.delivered ==> from in t.world.sessions && t.world.sessions[from].SameProgress(w.sessions[from]))
  {
    InheritedNamesAccepted();
    InheritedNamesAreNotResetWords();
  }

  /** Away from the two findings' inputs, the handler as written and the corrected one produce the same turn. */
  lemma HandlersAgreeElsewhere(w: World, from: string, body: Option<string>, env: Env)
    requires !(from in w.sessions && IsResetText(Texto(body)))
    requires !(from in w.sessions && w.sessions[from].step == MenuTipo && Texto(body) in InheritedNames)
    ensures HandleAsWritten(w, from, body, env) == Handle(w, from, body, env)
  {
    if !Ignored(from) {
      var texto := Texto(body);
      if from in w.sessions {
        var a := Arm(w, from);
        if a.sessions[from].step == MenuTipo {
          TypeLookupAgreesOffPrototype(texto);
        }
        assert StepSessionAsWritten(a.sessions[from], from, texto, env) == StepSession(a.sessions[from], from, texto, env);
      } else {
        assert CancelTimer(w, from) == w;
      }
    }
  }

  /**
   * The handler as written also touches only its sender, and keeps timer
   * ownership although it breaks the one-timer invariant.
   */
  lemma HandleAsWrittenOthersUntouched(w: World, from: string, body: Option<string>, env: Env)
    requires Owned(w)
    ensures Owned(HandleAsWritten(w, from, body, env).world)
    ensures SameForOthers(w, HandleAsWritten(w, from, body, env).world, from)
  {
    if !Ignored(from) {
      var texto := Texto(body);
      if from !in w.sessions || IsResetText(texto) {
        var r := ResetAsWritten(w, from);
        ResetsOwned(w, from);
        EndSessionOwned(r, from);
        SameForOthersTransitive(w, r, EndSession(r, from), from);
      } else {
        var a := Arm(w, from);
        ArmOwned(w, from);
        ApplyOwned(a, from, StepSessionAsWritten(a.sessions[from], from, texto, env), env.delivered);
        SameForOthersTransitive(w, a, HandleAsWritten(w, from, body, env).world, from);
      }
    }
  }
}

=== FILE: funnel.dfy ===
/**
 * The `message` handler: the sender filter, the reset rule and the step
 * machine, as one pure transition per inbound message.
 *
 * The ticket service and the transport are inputs (`Env`): what creating or
 * looking up a ticket would return, and whether sending the reply succeeds.
 */
module Funnel {
  import opened Wrappers
  import opened Text
  import opened Catalog
  import opened Sessions

  /** What the handler sends back; emoji and markup are left out. */
  datatype Reply =
    | MainMenu                               // the two-option menu
    | AskName
    | AskTicketNumber
    | ChooseOneOrTwo                         // "Digite 1 ou 2."
    | AskSector
    | TypeMenu                               // the five ticket types
    | InvalidOption                          // "Opção inválida."
    | AskDescription
    | TicketOpened(id: int)
    | InvalidNumber                          // "Número inválido."
    | TicketStatus(id: int, status: string)

  /** A call into the ticket service, with the arguments the handler passes. */
  datatype Call =
    | CreateTicket(descricao: string, telefone: string, nome: Option<string>, setor: Option<string>)
    | LookupTicket(ticketId: string)

  /** The part of the service's ticket record the handler reads. */
  datatype Ticket = Ticket(id: int, status: int)

  /** The outcomes of the foreign calls a message may make. */
  datatype Env = Env(created: Outcome<int>, found: Outcome<Ticket>, delivered: bool)

  /** The effect of one message: the new state, the reply attempted and the service call made. */
  datatype Turn = Turn(world: World, reply: Option<Reply>, call: Option<Call>)

  /** Messages without a sender, or from a group chat, are dropped before anything else. */
  predicate Ignored(from: string) {
    from == "" || EndsWith(from, "@g.us")
  }

  /** `msg.body?.trim() || ""`: the body without surrounding white space, or "" when there is none. */
  function Texto(body: Option<string>): (r: string)
    ensures body.None? ==> r == ""
    ensures |r| > 0 ==> !IsSpace(r[0]) && !IsSpace(r[|r| - 1])
  {
    Trim(body.GetOr(""))
  }

  /**
   * Sends `reply`; if sending throws, the handler's `catch` ends the
   * sender's session.
   */
  function Send(w: World, from: string, reply: Reply, delivered: bool): (t: Turn)
    ensures t.reply == Some(reply) && t.call.None?
    ensures delivered ==> t.world == w
    ensures !delivered ==> t.world == EndSession(w, from)
  {
    if delivered then Turn(w, Some(reply), None) else Turn(EndSession(w, from), Some(reply), None)
  }

  /** What a step branch decides for the sender's session. */
  datatype Action =
    | Keep(next: Session, prompt: Reply)             // store `next`, send `prompt`
    | Finish(reply: Option<Reply>, call: Call)       // after `call`, end the session

  /** The handler for one inbound message. */
  function Handle(w: World, from: string, body: Option<string>, env: Env): Turn {
    if Ignored(from) then Turn(w, None, None)
    else
      var texto := Texto(body);
      if from !in w.sessions || IsResetText(texto) then
        Send(ResetSession(w, from), from, MainMenu, env.delivered)
      else
        var a := Arm(w, from);
        Apply(a, from, StepSession(a.sessions[from], from, texto, env), env.delivered)
  }

  /** Carries out a step branch's decision on the store `a`, in which the sender's timer is already re-armed. */
  function Apply(a: World, from: string, act: Action, delivered: bool): Turn {
    match act
    case Keep(next, prompt) => Send(Put(a, from, next), from, prompt, delivered)
    case Finish(reply, call) => Turn(EndSession(a, from), reply, Some(call))
  }

  /** The step branches: what the trimmed text does to the sender's session. */
  function StepSession(s: Session, from: string, texto: string, env: Env): (act: Action)
    ensures act.Keep? ==> act.next.timeout == s.timeout
  {
    match s.step
    case MenuInicial =>
      if texto == "1" then Keep(s.(step := AguardandoNome), AskName)
      else if texto == "2" then Keep(s.(step := ConsultarChamado), AskTicketNumber)
      else Keep(s, ChooseOneOrTwo)
    case AguardandoNome =>
      Keep(s.(nome := Some(texto), step := AguardandoSetor), AskSector)
    case AguardandoSetor =>
      Keep(s.(setor := Some(texto), step := MenuTipo), TypeMenu)
    case MenuTipo =>
      (match TicketType(texto)
       case None => Keep(s, InvalidOption)
       case Some(tipo) => Keep(s.(tipoChamado := Some(Label(tipo)), step := AbrirChamado), AskDescription))
    case AbrirChamado =>
      var call := CreateTicket(texto, from, s.nome, s.setor);
      (match env.created
       case Failed => Finish(None, call)
       case Ok(id) => Finish(Some(TicketOpened(id)), call))
    case ConsultarChamado =>
      var ticketId := KeepDigits(texto);
      if ticketId == [] then Keep(s, InvalidNumber)
      else
        var call := LookupTicket(ticketId);
        match env.found
        case Failed => Finish(None, call)
        case Ok(ticket) => Finish(Some(TicketStatus(ticket.id, StatusText(ticket.status))), call)
  }
}

=== FILE: funnel_properties.dfy ===
/** Properties of the message handler, each stated over all states and messages. */
module FunnelProperties {
  import opened Wrappers
  import opened Text
  import opened Catalog
  import opened Sessions
  import opened Funnel

  /** The message reaches a step branch: a known sender whose text is not a restart word. */
  predicate Continues(w: World, from: string, body: Option<string>) {
    !Ignored(from) && from in w.sessions && !IsResetText(Texto(body))
  }

  /** A message is dropped without effect exactly when its sender is empty or a group. */
  lemma IgnoredIffNoEffect(w: World, from: string, body: Option<string>, env: Env)
    ensures Ignored(from) ==> Handle(w, from, body, env) == Turn(w, None, None)
    ensures Ignored(from) <==> Handle(w, from, body, env).reply.None? && Handle(w, from, body, env).call.None?
  {
  }

  /**
   * A sender with no session, or any restart word, yields exactly a fresh
   * `menu_inicial` session and the main menu, whatever the previous step.
   */
  lemma ResetHasPriority(w: World, from: string, body: Option<string>, env: Env)
    requires !Ignored(from) && (from !in w.sessions || IsResetText(Texto(body)))
    ensures var t := Handle(w, from, body, env);
            && t.reply == Some(MainMenu) && t.call.None?
            && (env.delivered ==> from in t.world.sessions && t.world.sessions[from].IsFresh())
            && (!env.delivered ==> from !in t.world.sessions)
  {
  }

  /** In `menu_inicial`, "1" and "2" choose a branch; anything else is re-prompted and changes nothing. */
  lemma MenuInicialChoice(w: World, from: string, body: Option<string>, env: Env)
    requires Continues(w, from, body) && w.sessions[from].step == MenuInicial && env.delivered
    ensures var s := w.sessions[from];
            var t := Handle(w, from, body, env);
            var texto := Texto(body);
            && from in t.world.sessions && t.call.None?
            && (texto == "1" ==> t.world.sessions[from].SameProgress(s.(step := AguardandoNome)) && t.reply == Some(AskName))
            && (texto == "2" ==> t.world.sessions[from].SameProgress(s.(step := ConsultarChamado)) && t.reply == Some(AskTicketNumber))
            && (texto != "1" && texto != "2" ==> t.world.sessions[from].SameProgress(s) && t.reply == Some(ChooseOneOrTwo))
  {
  }

  /** In `aguardando_nome` the text becomes `nome`, with no emptiness check, and the step moves on one. */
  lemma NameIsStored(w: World, from: string, body: Option<string>, env: Env)
    requires Continues(w, from, body) && w.sessions[from].step == AguardandoNome && env.delivered
    ensures var s := w.sessions[from];
            var t := Handle(w, from, body, env);
            && from in t.world.sessions
            && t.world.sessions[from].SameProgress(s.(nome := Some(Texto(body)), step := AguardandoSetor))
            && t.reply == Some(AskSector) && t.call.None?
  {
  }

  /** In `aguardando_setor` the text becomes `setor` and the step moves on one. */
  lemma SectorIsStored(w: World, from: string, body: Option<string>, env: Env)
    requires Continues(w, from, body) && w.sessions[from].step == AguardandoSetor && env.delivered
    ensures var s := w.sessions[from];
            var t := Handle(w, from, body, env);
            && from in t.world.sessions
            && t.world.sessions[from].SameProgress(s.(setor := Some(Texto(body)), step := MenuTipo))
            && t.reply == Some(TypeMenu) && t.call.None?
  {
  }

  /** In `menu_tipo` exactly the options "1".."5" are accepted, each storing its label. */
  lemma TypeMenuChoice(w: World, from: string, body: Option<string>, env: Env)
    requires Continues(w, from, body) && w.sessions[from].step == MenuTipo && env.delivered
    ensures var s := w.sessions[from];
            var t := Handle(w, from, body, env);
            var texto := Texto(body);
            var accepted := |texto| == 1 && '1' <= texto[0] <= '5';
            && from in t.world.sessions && t.call.None?
            && (accepted ==>
                  t.world.sessions[from].SameProgress(
                    s.(tipoChamado := Some(Label(TypeLabels[DigitValue(texto[0]) - 1])), step := AbrirChamado))
                  && t.reply == Some(AskDescription))
            && (!accepted ==> t.world.sessions[from].SameProgress(s) && t.reply == Some(InvalidOption))
  {
  }

  /**
   * In `consultar_chamado` the ticket number is the digits of the text; with
   * none the step stays and no lookup is made, otherwise that number is looked
   * up and the session ends whatever the outcome.
   */
  lemma ConsultTicket(w: World, from: string, body: Option<string>, env: Env)
    requires Continues(w, from, body) && w.sessions[from].step == ConsultarChamado
    ensures var s := w.sessions[from];
            var t := Handle(w, from, body, env);
            var texto := Texto(body);
            var noDigits := forall i :: 0 <= i < |texto| ==> !IsDigit(texto[i]);
            && (noDigits ==>
                  && t.call.None? && t.reply == Some(InvalidNumber)
                  && (env.delivered ==> from in t.world.sessions && t.world.sessions[from].SameProgress(s)))
            && (!noDigits ==>
                  && t.call == Some(LookupTicket(KeepDigits(texto)))
                  && from !in t.world.sessions
                  && (env.found.Failed? ==> t.reply.None?)
                  && (env.found.Ok? ==>
                        t.reply == Some(TicketStatus(env.found.value.id, StatusText(env.found.value.status)))))
  {
  }

  /**
   * In `abrir_chamado` the text is the description of exactly one create
   * call, carrying the sender and the collected name and sector; the session
   * ends whatever the outcome, and a failure sends no reply.
   */
  lemma OpenTicket(w: World, from: string, body: Option<string>, env: Env)
    requires Continues(w, from, body) && w.sessions[from].step == AbrirChamado
    ensures var s := w.sessions[from];
            var t := Handle(w, from, body, env);
            && t.call == Some(CreateTicket(Texto(body), from, s.nome, s.setor))
            && from !in t.world.sessions
            && (env.created.Failed? ==> t.reply.None?)
            && (env.created.Ok? ==> t.reply == Some(TicketOpened(env.created.value)))
  {
  }

  /** A step branch keeps the position and fields, or moves one step forward along the funnel. */
  lemma StepKeepsOrAdvances(s: Session, from: string, texto: string, env: Env)
    ensures var act := StepSession(s, from, texto, env);
            act.Keep? ==> act.next.SameProgress(s) || (Follows(s.step, act.next.step) && Rank(act.next.step) == Rank(s.step) + 1)
  {
  }

  /** A step branch keeps the per-step field invariant, and a create call it makes names the requester. */
  lemma StepPreservesWellFormed(s: Session, from: string, texto: string, env: Env)
    requires s.WellFormed()
    ensures var act := StepSession(s, from, texto, env);
            && (act.Keep? ==> act.next.WellFormed())
            && (act.Finish? && act.call.CreateTicket? ==> act.call.nome.Some? && act.call.setor.Some?)
  {
  }

  /**
   * Outside a restart, the sender's session is ended, kept at the same
   * position with the same fields, or moved one step forward along the funnel.
   */
  lemma StepsOnlyMoveForward(w: World, from: string, body: Option<string>, env: Env)
    requires Continues(w, from, body)
    ensures var s := w.sessions[from];
            var t := Handle(w, from, body, env);
            from !in t.world.sessions
            || t.world.sessions[from].SameProgress(s)
            || (Follows(s.step, t.world.sessions[from].step) && Rank(t.world.sessions[from].step) == Rank(s.step) + 1)
  {
  }

  /**
   * Carrying out a step decision on a store whose sender has just been
   * re-armed keeps timer ownership and touches no one but the sender.
   */
  lemma ApplyOwned(a: World, from: string, act: Action, delivered: bool)
    requires Owned(a) && from in a.sessions
    requires act.Keep? ==> act.next.timeout == a.sessions[from].timeout
    ensures Owned(Apply(a, from, act, delivered).world)
    ensures SameForOthers(a, Apply(a, from, act, delivered).world, from)
  {
    if act.Keep? {
      var p := Put(a, from, act.next);
      PutOwned(a, from, act.next);
      EndSessionOwned(p, from);
      SameForOthersTransitive(a, p, EndSession(p, from), from);
    } else {
      EndSessionOwned(a, from);
    }
  }

  /**
   * A message touches only its sender: every other user keeps their session
   * and their pending timers. This needs only timer ownership, which the
   * timer invariant implies (`Sessions.ConsistentIsOwned`) and the message
   * keeps, orphaned timers included.
   */
  lemma OthersUntouched(w: World, from: string, body: Option<string>, env: Env)
    requires Owned(w)
    ensures Owned(Handle(w, from, body, env).world)
    ensures SameForOthers(w, Handle(w, from, body, env).world, from)
  {
    if !Ignored(from) {
      var texto := Texto(body);
      if from !in w.sessions || IsResetText(texto) {
        var r := ResetSession(w, from);
        ResetsOwned(w, from);
        EndSessionOwned(r, from);
        SameForOthersTransitive(w, r, EndSession(r, from), from);
      } else {
        var a := Arm(w, from);
        ArmOwned(w, from);
        ApplyOwned(a, from, StepSession(a.sessions[from], from, texto, env), env.delivered);
        SameForOthersTransitive(w, a, Handle(w, from, body, env).world, from);
      }
    }
  }

  /**
   * The text the step branches see is the body with its white-space margins
   * removed: a slice of the body whose surroundings are all white space.
   */
  lemma TextoIsTrimmedBody(body: Option<string>)
    ensures body.None? ==> Texto(body) == ""
    ensures body.Some? ==>
              var b := body.value;
              var r := Texto(body);
              var k := LeadingSpace(b);
              && k + |r| <= |b| && AllSpace(b[..k]) && r == b[k..k + |r|] && AllSpace(b[k + |r|..])
  {
    TrimIsSlice(body.GetOr(""));
  }

  /** Every handled message keeps one pending timer per live session and none for any other user. */
  lemma HandlePreservesTimers(w: World, from: string, body: Option<string>, env: Env)
    requires TimersConsistent(w)
    ensures TimersConsistent(Handle(w, from, body, env).world)
  {
    if !Ignored(from) {
      var texto := Texto(body);
      if from !in w.sessions || IsResetText(texto) {
        ResetSessionPreservesTimers(w, from);
        EndSessionPreservesTimers(ResetSession(w, from), from);
      } else {
        var a := Arm(w, from);
        ArmPreservesTimers(w, from);
        var act := StepSession(a.sessions[from], from, texto, env);
        if act.Keep? {
          var p := Put(a, from, act.next);
          assert TimersConsistent(p);
          EndSessionPreservesTimers(p, from);
        } else {
          EndSessionPreservesTimers(a, from);
        }
      }
    }
  }

  /**
   * Every message that reaches the engine re-arms the sender's timer: a
   * session that survives the message stores the timer armed for it.
   */
  lemma MessageRearmsTimer(w: World, from: string, body: Option<string>, env: Env)
    requires !Ignored(from)
    ensures var t := Handle(w, from, body, env);
            from in t.world.sessions ==>
              t.world.sessions[from].timeout == Some(w.nextTimer)
              && w.nextTimer in t.world.timers && t.world.timers[w.nextTimer] == from
  {
  }

  /** A message that ends the sender's session also leaves no timer pending for them. */
  lemma EndedSessionLeavesNoTimer(w: World, from: string, body: Option<string>, env: Env)
    requires TimersConsistent(w)
    ensures var t := Handle(w, from, body, env);
            from !in t.world.sessions ==> PendingFor(t.world, from) == {}
  {
    HandlePreservesTimers(w, from, body, env);
    OneTimerPerSession(Handle(w, from, body, env).world, from);
  }

  /** Every session keeps exactly the fields its step has collected. */
  lemma HandlePreservesWellFormed(w: World, from: string, body: Option<string>, env: Env)
    requires AllWellFormed(w)
    ensures AllWellFormed(Handle(w, from, body, env).world)
  {
    if !Ignored(from) {
      var texto := Texto(body);
      if !(from !in w.sessions || IsResetText(texto)) {
        var a := Arm(w, from);
        StepPreservesWellFormed(a.sessions[from], from, texto, env);
      }
    }
  }

  /** A create call always carries the requester's name and sector. */
  lemma CreateCarriesRequester(w: World, from: string, body: Option<string>, env: Env)
    requires AllWellFormed(w)
    ensures var t := Handle(w, from, body, env);
            t.call.Some? && t.call.value.CreateTicket? ==> t.call.value.nome.Some? && t.call.value.setor.Some?
  {
  }

  /**
   * After a failed create call the sender has no session, so their next
   * message, whatever it says, starts a clean `menu_inicial` and calls nothing.
   */
  lemma FailureRestartsClean(w: World, from: string, body: Option<string>, next: Option<string>, env: Env, env2: Env)
    requires Continues(w, from, body) && w.sessions[from].step == AbrirChamado && env.created.Failed?
    requires env2.delivered
    ensures var t := Handle(w, from, body, env);
            var t2 := Handle(t.world, from, next, env2);
            && from !in t.world.sessions
            && t2.call.None? && t2.reply == Some(MainMenu)
            && from in t2.world.sessions && t2.world.sessions[from].IsFresh()
  {
  }

  /** Text that reaches the step branches exactly as typed: no padding, and not a restart word. */
  predicate Plain(word: string) {
    Trim(word) == word && !IsResetText(word)
  }

  /** A single digit is plain text. */
  lemma DigitIsPlain(d: char)
    requires IsDigit(d)
    ensures Texto(Some([d])) == [d] && Plain([d])
  {
  }

  /** Greeting, option 1 and a name take a user with no session to `aguardando_setor`. */
  lemma WalkToSector(w: World, from: string, first: Option<string>, name: string, ok: Env)
    requires !Ignored(from) && from !in w.sessions && ok.delivered && Plain(name)
    ensures var t1 := Handle(w, from, first, ok);
            var t2 := Handle(t1.world, from, Some("1"), ok);
            var t3 := Handle(t2.world, from, Some(name), ok);
            from in t3.world.sessions
            && t3.world.sessions[from].SameProgress(Fresh.(step := AguardandoSetor, nome := Some(name)))
  {
    var t1 := Handle(w, from, first, ok);
    assert from in t1.world.sessions && t1.world.sessions[from].IsFresh() by {
      ResetHasPriority(w, from, first, ok);
    }
    var t2 := Handle(t1.world, from, Some("1"), ok);
    assert from in t2.world.sessions && t2.world.sessions[from].SameProgress(Fresh.(step := AguardandoNome)) by {
      DigitIsPlain('1');
      MenuInicialChoice(t1.world, from, Some("1"), ok);
    }
    NameIsStored(t2.world, from, Some(name), ok);
  }

  /** A sector and a type option take the session on to `abrir_chamado` with that option's label stored. */
  lemma WalkToOpen(w: World, from: string, name: string, sector: string, choice: char, ok: Env)
    requires !Ignored(from) && from in w.sessions && ok.delivered && Plain(sector) && '1' <= choice <= '5'
    requires w.sessions[from].SameProgress(Fresh.(step := AguardandoSetor, nome := Some(name)))
    ensures var t4 := Handle(w, from, Some(sector), ok);
            var t5 := Handle(t4.world, from, Some([choice]), ok);
            var tipo := TypeLabels[DigitValue(choice) - 1];
            from in t5.world.sessions
            && t5.world.sessions[from].SameProgress(
                 Fresh.(step := AbrirChamado, nome := Some(name), setor := Some(sector), tipoChamado := Some(Label(tipo))))
  {
    var t4 := Handle(w, from, Some(sector), ok);
    SectorIsStored(w, from, Some(sector), ok);
    DigitIsPlain(choice);
    TypeMenuChoice(t4.world, from, Some([choice]), ok);
  }

  /** From `abrir_chamado`, a description ends the conversation with one create call. */
  lemma WalkFromSector(w: World, from: string, name: string, sector: string, choice: char,
                       description: string, id: int)
    requires !Ignored(from) && from in w.sessions && Plain(sector) && Plain(description) && '1' <= choice <= '5'
    requires w.sessions[from].SameProgress(Fresh.(step := AguardandoSetor, nome := Some(name)))
    ensures var ok := Env(Ok(id), Failed, true);
            var t5 := Handle(Handle(w, from, Some(sector), ok).world, from, Some([choice]), ok);
            var t6 := Handle(t5.world, from, Some(description), ok);
            && from in t5.world.sessions
            && t5.world.sessions[from].tipoChamado == Some(Label(TypeLabels[DigitValue(choice) - 1]))
            && t6.call == Some(CreateTicket(description, from, Some(name), Some(sector)))
            && t6.reply == Some(TicketOpened(id))
            && from !in t6.world.sessions
  {
    var ok := Env(Ok(id), Failed, true);
    var t5 := Handle(Handle(w, from, Some(sector), ok).world, from, Some([choice]), ok);
    WalkToOpen(w, from, name, sector, choice, ok);
    assert Texto(Some(description)) == description;
    OpenTicket(t5.world, from, Some(description), ok);
  }

  /**
   * A whole conversation from a user with no session: any first message,
   * option 1, name, sector, a type option, description. It ends in one
   * create call with the description, the sender and the collected name and
   * sector, after the option's label was stored, and leaves no session behind.
   */
  lemma OpenTicketWalkthrough(
    w: World, from: string, first: Option<string>, name: string, sector: string, choice: char,
    description: string, id: int)
    requires !Ignored(from) && from !in w.sessions && '1' <= choice <= '5'
    requires Plain(name) && Plain(sector) && Plain(description)
    ensures var ok := Env(Ok(id), Failed, true);
            var t3 := Handle(Handle(Handle(w, from, first, ok).world, from, Some("1"), ok).world, from, Some(name), ok);
            var t5 := Handle(Handle(t3.world, from, Some(sector), ok).world, from, Some([choice]), ok);
            var t6 := Handle(t5.world, from, Some(description), ok);
            && from in t5.world.sessions
            && t5.world.sessions[from].tipoChamado == Some(Label(TypeLabels[DigitValue(choice) - 1]))
            && t6.call == Some(CreateTicket(description, from, Some(name), Some(sector)))
            && t6.reply == Some(TicketOpened(id))
            && from !in t6.world.sessions
  {
    var ok := Env(Ok(id), Failed, true);
    WalkToSector(w, from, first, name, ok);
    var t3 := Handle(Handle(Handle(w, from, first, ok).world, from, Some("1"), ok).world, from, Some(name), ok);
    WalkFromSector(t3.world, from, name, sector, choice, description, id);
  }
}

=== FILE: sessions.dfy ===
/**
 * The session store (`userState`) and the inactivity-timer bookkeeping
 * around it (`iniciarTimeout`, `encerrarSessao` and the timer callback).
 *
 * Timers are modelled by identity only: arming one allocates a fresh id and
 * records which user's entry its callback deletes; cancelling removes the id
 * from the pending set; an expiry is an explicit event naming a pending id.
 */
module Sessions {
  import opened Wrappers
  import opened Catalog

  /** The funnel positions, in the order the string tags appear in the handler. */
  datatype Step =
    | MenuInicial
    | AguardandoNome
    | AguardandoSetor
    | MenuTipo
    | AbrirChamado
    | ConsultarChamado

  /** The one-step moves of the funnel: the two branches out of the first menu, then the ticket-opening chain. */
  predicate Follows(from: Step, to: Step) {
    match from
    case MenuInicial => to == AguardandoNome || to == ConsultarChamado
    case AguardandoNome => to == AguardandoSetor
    case AguardandoSetor => to == MenuTipo
    case MenuTipo => to == AbrirChamado
    case AbrirChamado => false
    case ConsultarChamado => false
  }

  /** Distance from the first menu. */
  function Rank(step: Step): (n: nat)
    ensures n == 0 <==> step == MenuInicial
  {
    match step
    case MenuInicial => 0
    case AguardandoNome => 1
    case ConsultarChamado => 1
    case AguardandoSetor => 2
    case MenuTipo => 3
    case AbrirChamado => 4
  }

  /** Every move goes exactly one position forward, so the funnel never moves back. */
  lemma FollowsMovesForward(a: Step, b: Step)
    requires Follows(a, b)
    ensures Rank(b) == Rank(a) + 1
  {
  }

  type TimerId = nat

  /** One user's entry of `userState`: the step tag, the collected fields and the stored timer handle. */
  datatype Session = Session(
    step: Step,
    nome: Option<string>,
    setor: Option<string>,
    tipoChamado: Option<TypeValue>,
    timeout: Option<TimerId>)
  {
    /** The same funnel position and collected fields, whatever the timer. */
    predicate SameProgress(other: Session) {
      step == other.step && nome == other.nome && setor == other.setor && tipoChamado == other.tipoChamado
    }

    /** The object `{ step: "menu_inicial" }`, possibly with a timer stored on it. */
    predicate IsFresh() {
      step == MenuInicial && nome.None? && setor.None? && tipoChamado.None?
    }

    /** The fields present are exactly those the steps before this one collect. */
    predicate WellFormed() {
      match step
      case MenuInicial => nome.None? && setor.None? && tipoChamado.None?
      case AguardandoNome => nome.None? && setor.None? && tipoChamado.None?
      case AguardandoSetor => nome.Some? && setor.None? && tipoChamado.None?
      case MenuTipo => nome.Some? && setor.Some? && tipoChamado.None?
      case AbrirChamado => nome.Some? && setor.Some? && tipoChamado.Some?
      case ConsultarChamado => nome.None? && setor.None? && tipoChamado.None?
    }
  }

  /** The object literal the reset path stores. */
  const Fresh: Session := Session(MenuInicial, None, None, None, None)

  /**
   * The process state: the `userState` map, the timers still pending
   * (each with the user id its callback deletes) and the next timer id.
   */
  datatype World = World(sessions: map<string, Session>, timers: map<TimerId, string>, nextTimer: TimerId)

  /** The state before any message has arrived. */
  const Empty: World := World(map[], map[], 0)

  /** The pending timers whose callback deletes `user`'s entry. */
  function PendingFor(w: World, user: string): set<TimerId> {
    set t | t in w.timers && w.timers[t] == user
  }

  /**
   * Each live session stores the one pending timer that will delete it, and
   * every pending timer is stored on the session it will delete.
   */
  predicate TimersConsistent(w: World) {
    && (forall u :: u in w.sessions ==>
          w.sessions[u].timeout.Some? && w.sessions[u].timeout.value in w.timers
          && w.timers[w.sessions[u].timeout.value] == u)
    && (forall t :: t in w.timers ==>
          w.timers[t] in w.sessions && w.sessions[w.timers[t]].timeout == Some(t))
    && (forall t :: t in w.timers ==> t < w.nextTimer)
  }

  /** Every session satisfies its per-step field invariant. */
  predicate AllWellFormed(w: World) {
    forall u :: u in w.sessions ==> w.sessions[u].WellFormed()
  }

  /** Under the timer invariant a live session has exactly one pending timer and an absent user none. */
  lemma OneTimerPerSession(w: World, user: string)
    requires TimersConsistent(w)
    ensures user in w.sessions ==> PendingFor(w, user) == {w.sessions[user].timeout.value}
    ensures user !in w.sessions ==> PendingFor(w, user) == {}
  {
  }

  lemma EmptyIsConsistent()
    ensures TimersConsistent(Empty) && AllWellFormed(Empty)
  {
  }

  /** `clearTimeout(userState[user]?.timeout)`: cancels the timer stored on `user`'s entry, if any. */
  function CancelTimer(w: World, user: string): (w': World)
    ensures w'.sessions == w.sessions && w'.nextTimer == w.nextTimer
    ensures user in w.sessions && w.sessions[user].timeout.Some? ==>
              w'.timers == w.timers - {w.sessions[user].timeout.value}
    ensures !(user in w.sessions && w.sessions[user].timeout.Some?) ==> w'.timers == w.timers
  {
    if user in w.sessions && w.sessions[user].timeout.Some? then
      w.(timers := w.timers - {w.sessions[user].timeout.value})
    else
      w
  }

  /**
   * Under the timer invariant, cancelling leaves `user` with no pending timer
   * and every other user with exactly the timers they had.
   */
  lemma CancelTimerClearsUser(w: World, user: string)
    requires TimersConsistent(w)
    ensures PendingFor(CancelTimer(w, user), user) == {}
    ensures forall u :: u != user ==> PendingFor(CancelTimer(w, user), u) == PendingFor(w, u)
  {
  }

  /** `userState[user] = s`. */
  function Put(w: World, user: string, s: Session): World {
    w.(sessions := w.sessions[user := s])
  }

  /**
   * `iniciarTimeout(user)`: cancels the timer stored on the entry, arms a new
   * one that will delete `user`'s entry, and stores it on the entry.
   */
  function Arm(w: World, user: string): (w': World)
    requires user in w.sessions
    ensures user in w'.sessions && w'.sessions[user].SameProgress(w.sessions[user])
    ensures w'.sessions[user].timeout == Some(w.nextTimer) && w'.nextTimer > w.nextTimer
    ensures w.nextTimer in w'.timers && w'.timers[w.nextTimer] == user
    ensures forall u :: u != user ==> (u in w'.sessions <==> u in w.sessions)
    ensures forall u :: u != user && u in w.sessions ==> w'.sessions[u] == w.sessions[u]
    ensures forall t :: t in w'.timers && t != w.nextTimer ==> t in w.timers && w'.timers[t] == w.timers[t]
    ensures forall t :: t in w.timers && t != w.nextTimer && Some(t) != w.sessions[user].timeout ==>
              t in w'.timers
    ensures w.sessions[user].timeout.Some? && w.sessions[user].timeout.value != w.nextTimer ==>
              w.sessions[user].timeout.value !in w'.timers
  {
    var c := CancelTimer(w, user);
    var t := w.nextTimer;
    World(c.sessions[user := c.sessions[user].(timeout := Some(t))], c.timers[t := user], t + 1)
  }

  /** `encerrarSessao(user)`: cancels the stored timer and deletes the entry. */
  function EndSession(w: World, user: string): (w': World)
    ensures user !in w'.sessions
    ensures forall u :: u != user ==> (u in w'.sessions <==> u in w.sessions)
    ensures forall u :: u != user && u in w.sessions ==> w'.sessions[u] == w.sessions[u]
    ensures forall t :: t in w'.timers ==> t in w.timers && w'.timers[t] == w.timers[t]
    ensures forall t :: t in w.timers && (user !in w.sessions || w.sessions[user].timeout != Some(t)) ==>
              t in w'.timers
    ensures w'.nextTimer == w.nextTimer
  {
    var c := CancelTimer(w, user);
    c.(sessions := c.sessions - {user})
  }

  /**
   * The reset path exactly as the handler performs it: the entry is replaced
   * by a fresh object first, so `iniciarTimeout` finds no stored timer to
   * cancel and the old one stays pending.
   */
  function ResetAsWritten(w: World, user: string): (w': World)
    ensures user in w'.sessions && w'.sessions[user].IsFresh()
    ensures w'.timers == w.timers[w.nextTimer := user]
  {
    Arm(Put(w, user, Fresh), user)
  }

  /**
   * The reset path with the old session's timer cancelled before the entry is
   * replaced, as `iniciarTimeout`'s own cancel step intends.
   */
  function ResetSession(w: World, user: string): (w': World)
    ensures user in w'.sessions && w'.sessions[user].IsFresh()
    ensures w'.sessions[user].timeout == Some(w.nextTimer)
    ensures forall u :: u != user ==> (u in w'.sessions <==> u in w.sessions)
    ensures forall u :: u != user && u in w.sessions ==> w'.sessions[u] == w.sessions[u]
    ensures forall t :: t in w'.timers && t != w.nextTimer ==> t in w.timers && w'.timers[t] == w.timers[t]
  {
    Arm(Put(CancelTimer(w, user), user, Fresh), user)
  }

  /** What an expiry event produces: the new state and the user sent the inactivity notice. */
  datatype Expired = Expired(world: World, notified: Option<string>)

  /**
   * Timer `t` fires: if it is still pending, its callback notifies the user it
   * was armed for (best effort) and deletes whatever entry that user has now.
   */
  function Expire(w: World, t: TimerId): (e: Expired)
    ensures t !in w.timers ==> e == Expired(w, None)
    ensures t in w.timers ==> e.notified == Some(w.timers[t]) && w.timers[t] !in e.world.sessions
    ensures t !in e.world.timers && e.world.nextTimer == w.nextTimer
    ensures t in w.timers ==> e.world.sessions == w.sessions - {w.timers[t]} && e.world.timers == w.timers - {t}
  {
    if t in w.timers then
      var user := w.timers[t];
      Expired(World(w.sessions - {user}, w.timers - {t}, w.nextTimer), Some(user))
    else
      Expired(w, None)
  }

  // ----- the timer invariant -----

  lemma ArmPreservesTimers(w: World, user: string)
    requires user in w.sessions && TimersConsistent(w)
    ensures TimersConsistent(Arm(w, user))
  {
  }

  lemma EndSessionPreservesTimers(w: World, user: string)
    requires TimersConsistent(w)
    ensures TimersConsistent(EndSession(w, user))
  {
  }

  lemma ResetSessionPreservesTimers(w: World, user: string)
    requires TimersConsistent(w)
    ensures TimersConsistent(ResetSession(w, user))
  {
  }

  /** A pending timer only ever deletes the session that stores it; other users keep theirs. */
  lemma ExpirePreservesTimers(w: World, t: TimerId)
    requires TimersConsistent(w)
    ensures TimersConsistent(Expire(w, t).world)
    ensures t in w.timers ==> Expire(w, t).world.sessions == w.sessions - {w.timers[t]}
  {
  }

  /** An idle session is removed by its own timer, and its user is notified. */
  lemma IdleSessionExpires(w: World, user: string)
    requires TimersConsistent(w) && user in w.sessions
    ensures var e := Expire(w, w.sessions[user].timeout.value);
            e.notified == Some(user) && e.world.sessions == w.sessions - {user}
  {
  }

  // ----- timer ownership: the weaker invariant the code as written keeps -----

  /** The timer stored on `s`, if any, was allocated in `w`, and if it is still pending it deletes `user`'s entry. */
  predicate StoredTimerOwned(w: World, user: string, s: Session) {
    s.timeout.Some? ==>
      s.timeout.value < w.nextTimer && (s.timeout.value in w.timers ==> w.timers[s.timeout.value] == user)
  }

  /**
   * Every pending timer was allocated in `w`, and a stored timer that is still
   * pending belongs to the session that stores it. Unlike `TimersConsistent`
   * this allows orphaned timers, so it also holds after a restart as written.
   */
  predicate Owned(w: World) {
    && (forall t :: t in w.timers ==> t < w.nextTimer)
    && (forall u :: u in w.sessions ==> StoredTimerOwned(w, u, w.sessions[u]))
  }

  /**
   * `w'` agrees with `w` for every user other than `user`: the same sessions,
   * and the same pending timers deleting any other user's entry.
   */
  ghost predicate SameForOthers(w: World, w': World, user: string) {
    && (forall u :: u != user ==> (u in w'.sessions <==> u in w.sessions))
    && (forall u :: u != user && u in w.sessions ==> w'.sessions[u] == w.sessions[u])
    && (forall k :: k in w.timers && w.timers[k] != user ==> k in w'.timers && w'.timers[k] == w.timers[k])
    && (forall k :: k in w'.timers && w'.timers[k] != user ==> k in w.timers && w.timers[k] == w'.timers[k])
  }

  lemma SameForOthersTransitive(w1: World, w2: World, w3: World, user: string)
    requires SameForOthers(w1, w2, user) && SameForOthers(w2, w3, user)
    ensures SameForOthers(w1, w3, user)
  {
  }

  /** The one-timer invariant implies ownership. */
  lemma ConsistentIsOwned(w: World)
    requires TimersConsistent(w)
    ensures Owned(w)
  {
  }

  /** Under ownership, cancelling the user's stored timer removes none of another user's timers. */
  lemma CancelTimerOwned(w: World, user: string)
    requires Owned(w)
    ensures Owned(CancelTimer(w, user)) && SameForOthers(w, CancelTimer(w, user), user)
  {
  }

  /** Storing a session whose timer belongs to its user keeps ownership and touches no one else. */
  lemma PutOwned(w: World, user: string, s: Session)
    requires Owned(w) && StoredTimerOwned(w, user, s)
    ensures Owned(Put(w, user, s)) && SameForOthers(w, Put(w, user, s), user)
  {
  }

  /** Re-arming keeps ownership and touches no one else, because the new id was never pending. */
  lemma ArmOwned(w: World, user: string)
    requires Owned(w) && user in w.sessions
    ensures Owned(Arm(w, user)) && SameForOthers(w, Arm(w, user), user)
  {
    CancelTimerOwned(w, user);
  }

  lemma EndSessionOwned(w: World, user: string)
    requires Owned(w)
    ensures Owned(EndSession(w, user)) && SameForOthers(w, EndSession(w, user), user)
  {
    CancelTimerOwned(w, user);
  }

  /** Both restarts keep ownership and touch no one else. */
  lemma ResetsOwned(w: World, user: string)
    requires Owned(w)
    ensures Owned(ResetAsWritten(w, user)) && SameForOthers(w, ResetAsWritten(w, user), user)
    ensures Owned(ResetSession(w, user)) && SameForOthers(w, ResetSession(w, user), user)
  {
    PutOwned(w, user, Fresh);
    ArmOwned(Put(w, user, Fresh), user);
    SameForOthersTransitive(w, Put(w, user, Fresh), ResetAsWritten(w, user), user);
    var c := CancelTimer(w, user);
    CancelTimerOwned(w, user);
    PutOwned(c, user, Fresh);
    ArmOwned(Put(c, user, Fresh), user);
    SameForOthersTransitive(c, Put(c, user, Fresh), ResetSession(w, user), user);
    SameForOthersTransitive(w, c, ResetSession(w, user), user);
  }

  /** An expiry keeps ownership, orphaned timers included. */
  lemma ExpireOwned(w: World, t: TimerId)
    requires Owned(w)
    ensures Owned(Expire(w, t).world)
  {
  }
}

=== FILE: text.dfy ===
/**
 * The few ECMAScript string operations the funnel relies on: `trim`,
 * `toLowerCase`, `endsWith`, the `/\D/g` digit filter and the decimal
 * rendering of an integer in a template literal.
 */
module Text {

  /** A character `String.prototype.trim` strips: ECMAScript WhiteSpace or LineTerminator. */
  predicate IsSpace(c: char) {
    var n := c as int;
    || n == 0x09 || n == 0x0A || n == 0x0B || n == 0x0C || n == 0x0D || n == 0x20
    || n == 0xA0 || n == 0x1680 || (0x2000 <= n <= 0x200A)
    || n == 0x2028 || n == 0x2029 || n == 0x202F || n == 0x205F
    || n == 0x3000 || n == 0xFEFF
  }

  predicate AllSpace(s: string) {
    forall i :: 0 <= i < |s| ==> IsSpace(s[i])
  }

  /** Drops the leading white space. */
  function TrimStart(s: string): (r: string)
    ensures |r| <= |s|
  {
    if |s| > 0 && IsSpace(s[0]) then TrimStart(s[1..]) else s
  }

  /** What `TrimStart` drops is white space, and what it keeps is the rest of the input. */
  lemma {:induction false} TrimStartShape(s: string)
    ensures var r := TrimStart(s);
            && r == s[|s| - |r|..]
            && AllSpace(s[..|s| - |r|])
            && (r == [] || !IsSpace(r[0]))
    decreases |s|
  {
    if |s| > 0 && IsSpace(s[0]) {
      var p := s[1..];
      TrimStartShape(p);
      var r := TrimStart(p);
      assert s[..|s| - |r|] == [s[0]] + p[..|p| - |r|];
      assert s[|s| - |r|..] == p[|p| - |r|..];
    }
  }

  /** Drops the trailing white space. */
  function TrimEnd(s: string): (r: string)
    ensures |r| <= |s|
  {
    if |s| > 0 && IsSpace(s[|s| - 1]) then TrimEnd(s[..|s| - 1]) else s
  }

  /** What `TrimEnd` drops is white space, and what it keeps is the start of the input. */
  lemma {:induction false} TrimEndShape(s: string)
    ensures var r := TrimEnd(s);
            && r == s[..|r|]
            && AllSpace(s[|r|..])
            && (r == [] || !IsSpace(r[|r| - 1]))
    decreases |s|
  {
    if |s| > 0 && IsSpace(s[|s| - 1]) {
      var p := s[..|s| - 1];
      TrimEndShape(p);
      var r := TrimEnd(p);
      assert s[|r|..] == p[|r|..] + [s[|s| - 1]];
      assert s[..|r|] == p[..|r|];
    }
  }

  /** `String.prototype.trim`. */
  function Trim(s: string): (r: string)
    ensures |r| <= |s|
    ensures r == [] || (!IsSpace(r[0]) && !IsSpace(r[|r| - 1]))
  {
    TrimStartShape(s);
    TrimEndShape(TrimStart(s));
    TrimEnd(TrimStart(s))
  }

  /** How many white-space characters `trim` removes from the front. */
  function LeadingSpace(s: string): nat
  {
    |s| - |TrimStart(s)|
  }

  /**
   * The trimmed text is the slice of the input that remains once white space
   * alone has been removed from both ends.
   */
  lemma TrimIsSlice(s: string)
    ensures LeadingSpace(s) + |Trim(s)| <= |s|
    ensures AllSpace(s[..LeadingSpace(s)])
    ensures Trim(s) == s[LeadingSpace(s)..LeadingSpace(s) + |Trim(s)|]
    ensures AllSpace(s[LeadingSpace(s) + |Trim(s)|..])
  {
    var a := TrimStart(s);
    var r := TrimEnd(a);
    var i := |s| - |a|;
    TrimStartShape(s);
    TrimEndShape(a);
    assert a == s[i..];
    assert r == a[..|r|];
    assert s[i + |r|..] == a[|r|..];
  }

  /** A string with no white space at either end is its own trim. */
  lemma TrimOfTrimmed(s: string)
    requires s == [] || (!IsSpace(s[0]) && !IsSpace(s[|s| - 1]))
    ensures Trim(s) == s
  {
  }

  /** Trimming is idempotent. */
  lemma TrimIdempotent(s: string)
    ensures Trim(Trim(s)) == Trim(s)
  {
  }

  /** Padding with white space does not change the trimmed text. */
  lemma {:induction false} TrimIgnoresPadding(pre: string, s: string, post: string)
    requires AllSpace(pre) && AllSpace(post)
    ensures Trim(pre + s + post) == Trim(s)
  {
    TrimStartPadding(pre, s + post);
    assert pre + s + post == pre + (s + post);
    TrimEndPadding(TrimStart(s), post);
    TrimStartKeepsTail(s, post);
  }

  lemma {:induction false} TrimStartPadding(pre: string, s: string)
    requires AllSpace(pre)
    ensures TrimStart(pre + s) == TrimStart(s)
    decreases |pre|
  {
    if pre != [] {
      assert (pre + s)[0] == pre[0];
      assert (pre + s)[1..] == pre[1..] + s;
      TrimStartPadding(pre[1..], s);
    } else {
      assert pre + s == s;
    }
  }

  lemma {:induction false} TrimEndPadding(s: string, post: string)
    requires AllSpace(post)
    ensures TrimEnd(s + post) == TrimEnd(s)
    decreases |post|
  {
    if post != [] {
      var n := |post| - 1;
      assert (s + post)[|s + post| - 1] == post[n];
      assert (s + post)[..|s + post| - 1] == s + post[..n];
      TrimEndPadding(s, post[..n]);
    } else {
      assert s + post == s;
    }
  }

  /** Stripping the front of `s + post` keeps `post` at the back, unless `s` is all space. */
  lemma {:induction false} TrimStartKeepsTail(s: string, post: string)
    requires AllSpace(post)
    ensures TrimEnd(TrimStart(s + post)) == TrimEnd(TrimStart(s))
    decreases |s|
  {
    if s == [] {
      assert s + post == post;
      AllSpaceTrimStart(post);
    } else if IsSpace(s[0]) {
      assert (s + post)[1..] == s[1..] + post;
      TrimStartKeepsTail(s[1..], post);
    } else {
      assert TrimStart(s + post) == s + post;
      TrimEndPadding(s, post);
    }
  }

  lemma {:induction false} AllSpaceTrimStart(s: string)
    requires AllSpace(s)
    ensures TrimStart(s) == []
    decreases |s|
  {
    if s != [] {
      AllSpaceTrimStart(s[1..]);
    }
  }

  /** `String.prototype.endsWith`. */
  predicate EndsWith(s: string, suffix: string) {
    |suffix| <= |s| && s[|s| - |suffix|..] == suffix
  }

  /**
   * `String.prototype.toLowerCase`, for the characters that have a
   * single-character lower case in ASCII and Latin-1; every other character
   * is kept as it is.
   */
  function LowerChar(c: char): (r: char)
    ensures ('A' <= c <= 'Z') ==> r as int == c as int + 32
    ensures !IsUpper(c) ==> r == c
    ensures !IsUpper(r)
  {
    if IsUpper(c) then (c as int + 32) as char else c
  }

  predicate IsUpper(c: char) {
    ('A' <= c <= 'Z') || ('\U{00C0}' <= c <= '\U{00DE}' && c != '\U{00D7}')
  }

  /**
   * `toLowerCase` on the modelled letters: every upper-case letter becomes its
   * lower-case partner, everything else is kept, so no upper-case letter is left.
   */
  function ToLower(s: string): (r: string)
    ensures |r| == |s|
    ensures forall i :: 0 <= i < |r| ==> !IsUpper(r[i])
    ensures forall i :: 0 <= i < |s| && IsUpper(s[i]) ==> r[i] as int == s[i] as int + 32
    ensures forall i :: 0 <= i < |s| && !IsUpper(s[i]) ==> r[i] == s[i]
    ensures (forall i :: 0 <= i < |s| ==> !IsUpper(s[i])) ==> r == s
  {
    seq(|s|, i requires 0 <= i < |s| => LowerChar(s[i]))
  }

  /** Lower-casing twice is lower-casing once. */
  lemma ToLowerIdempotent(s: string)
    ensures ToLower(ToLower(s)) == ToLower(s)
  {
  }

  predicate IsDigit(c: char) {
    '0' <= c <= '9'
  }

  /** `s.replace(/\D/g, "")`: the digits of `s`, in order. */
  function KeepDigits(s: string): (r: string)
    ensures |r| <= |s|
    ensures forall i :: 0 <= i < |r| ==> IsDigit(r[i])
    ensures r == [] <==> forall i :: 0 <= i < |s| ==> !IsDigit(s[i])
  {
    if s == [] then []
    else
      var rest := KeepDigits(s[1..]);
      assert forall i :: 1 <= i < |s| ==> s[i] == s[1..][i - 1];
      if IsDigit(s[0]) then [s[0]] + rest else rest
  }

  /** The filter keeps every digit as often as it occurs, and nothing else. */
  lemma {:induction false} KeepDigitsCounts(s: string)
    ensures forall c :: IsDigit(c) ==> multiset(KeepDigits(s))[c] == multiset(s)[c]
    ensures forall c :: !IsDigit(c) ==> multiset(KeepDigits(s))[c] == 0
    decreases |s|
  {
    if s != [] {
      KeepDigitsCounts(s[1..]);
      assert s == [s[0]] + s[1..];
    }
  }

  /** The digit filter works piecewise: it keeps the order of the digits. */
  lemma {:induction false} KeepDigitsAppend(a: string, b: string)
    ensures KeepDigits(a + b) == KeepDigits(a) + KeepDigits(b)
    decreases |a|
  {
    if a == [] {
      assert a + b == b;
    } else {
      assert (a + b)[0] == a[0];
      assert (a + b)[1..] == a[1..] + b;
      KeepDigitsAppend(a[1..], b);
    }
  }

  /** A string of digits passes the filter unchanged. */
  lemma {:induction false} KeepDigitsOfDigits(s: string)
    requires forall i :: 0 <= i < |s| ==> IsDigit(s[i])
    ensures KeepDigits(s) == s
    decreases |s|
  {
    if s != [] {
      KeepDigitsOfDigits(s[1..]);
    }
  }

  /** Filtering is idempotent. */
  lemma KeepDigitsIdempotent(s: string)
    ensures KeepDigits(KeepDigits(s)) == KeepDigits(s)
  {
  }

  function DigitChar(d: nat): (c: char)
    requires d < 10
    ensures IsDigit(c)
  {
    ('0' as int + d) as char
  }

  function DigitValue(c: char): (d: nat)
    requires IsDigit(c)
    ensures d < 10 && DigitChar(d) == c
  {
    c as int - '0' as int
  }

  /** The decimal text of a natural number, without leading zeros. */
  function NatToString(n: nat): (r: string)
    ensures |r| >= 1
    ensures forall i :: 0 <= i < |r| ==> IsDigit(r[i])
    ensures r[0] == '0' ==> n == 0
  {
    if n < 10 then [DigitChar(n)] else NatToString(n / 10) + [DigitChar(n % 10)]
  }

  /** The number a string of decimal digits denotes. */
  function ParseNat(s: string): nat
    requires forall i :: 0 <= i < |s| ==> IsDigit(s[i])
  {
    if s == [] then 0 else 10 * ParseNat(s[..|s| - 1]) + DigitValue(s[|s| - 1])
  }

  /** Reading back the decimal text gives the number. */
  lemma {:induction false} ParseNatToString(n: nat)
    ensures ParseNat(NatToString(n)) == n
  {
    if n >= 10 {
      var r := NatToString(n);
      assert r[..|r| - 1] == NatToString(n / 10);
      ParseNatToString(n / 10);
    }
  }

  /** The text of an integer in a template literal: `-` followed by the magnitude when negative. */
  function IntToString(v: int): (r: string)
    ensures |r| >= 1
    ensures (r[0] == '-') <==> v < 0
  {
    if v < 0 then "-" + NatToString(-v) else NatToString(v)
  }

  /** Distinct integers render as distinct text. */
  lemma IntToStringInjective(a: int, b: int)
    requires IntToString(a) == IntToString(b)
    ensures a == b
  {
    if a < 0 {
      assert b < 0;
      var ra := NatToString(-a);
      var rb := NatToString(-b);
      assert ("-" + ra)[1..] == ra;
      assert ("-" + rb)[1..] == rb;
      assert ra == rb;
      ParseNatToString(-a);
      ParseNatToString(-b);
    } else {
      assert b >= 0;
      assert NatToString(a) == NatToString(b);
      ParseNatToString(a);
      ParseNatToString(b);
    }
  }
}

=== FILE: wrappers.dfy ===
/** The optional values and call outcomes used across the model. */
module Wrappers {

  /** A value that may be absent, as an unset property of a session object. */
  datatype Option<+T> = None | Some(value: T) {

    /** The value, or `default` when absent, as `x ?? default`. */
    function GetOr(default: T): T {
      match this
      case Some(v) => v
      case None => default
    }
  }

  /** The outcome of a call into the ticket service: a value, or an exception. */
  datatype Outcome<+T> = Ok(value: T) | Failed
}
